=== FILE: README.md ===
# MemoryRepository — a Dafny model of October Rain's request-level cache

`October\Rain\Halcyon\MemoryRepository` extends Laravel's cache `Repository`
with a local `$cache` array that lives for one request. Every public method
reads or updates that memo and then delegates to the parent repository, which
talks to the real store. This project models the memo, the store and every
method of the class as pure Dafny functions. It then proves what callers can
observe across calls.

## Layout

- `values.dfy` (module `Values`): PHP values (`Null`, `Bool`, `Int`, `Data`).
  It models `isset` on an array entry, which is false for a present-but-null
  entry. It also models PHP `+` and `-` with an integer step, including the
  error PHP 8 raises on a non-numeric operand.
- `backing.dfy` (module `Backing`): the store and the parent.
  - The store is a map of entries plus a key prefix.
  - `Backend` holds, as opaque functions, the parts of the parent that are not
    visible here. These are `getMinutes`, the batch read `many`, the replies of
    the store's `increment` and `decrement`, and the flag of its `forget`.
  - `Read` is the parent's single-key read: the stored value, or the default
    when the store has nothing or a null.
  - `Counted` is the store after a counter call: an integer reply is the
    counter's new value; a failure reply changes nothing.
  - `Call` names each call made into the parent or the store.
  - `NullMeansNoWrite` is the assumption that the parent resolves an absent
    duration to null ("do not write").
  - `Read`, `Counted` and `NullMeansNoWrite` are assumptions about the parent,
    written as plain definitions. They are not promises of this class.
- `memory_repository.dfy` (module `MemoryRepository`): the class. Each method
  is a function from a `Repo` (memo plus store) to a `Step`. A `Step` holds the
  new `Repo`, the method's result, and the calls made to the parent or store.
- `lifetime.dfy` (module `Lifetime`): runs of operations over one request. It
  defines a coherence invariant between the two tiers: for every memoized key,
  the store holds the same value or nothing. Every modelled operation except
  the two counters preserves it. The array-key `put`, which is not modelled,
  breaks it too (see "Left out"). All of this assumes the store is written
  only through this cache. It also proves which keys the memo can hold.
- `properties.dfy` (module `Properties`): behaviour seen across two calls.
  This covers memoized defaults, a memoized null being fetched again, put then
  get, a `put` with no duration, forget/flush then get, the counter heuristic,
  and the batch read bypassing the memo.

## Model

| member | source | states |
|---|---|---|
| Values.Plus | src/Halcyon/MemoryRepository.php:68 | `old + step` is defined exactly when the memoized value is numeric (null, bool or int), and is then the integer the value stands for plus the step |
| Values.Minus | src/Halcyon/MemoryRepository.php:81 | `old - step` is defined exactly when the memoized value is numeric, and is then the integer it stands for minus the step |
| MemoryRepository.Get | src/Halcyon/MemoryRepository.php:26-37 | an array of keys goes to the batch read, which leaves the memo alone and makes no single-key read; a single key whose memo entry passes `isset` is answered from the memo with no store call and no change; otherwise the parent's read (store value or default) is returned, memoized under that key only, with one store read |
| MemoryRepository.Put | src/Halcyon/MemoryRepository.php:47-57 | a duration that resolves to null makes `put` a no-op on both tiers with no call; otherwise memo and store both hold the value for the key, no other key changes, and one write is made with the resolved duration |
| MemoryRepository.Increment | src/Halcyon/MemoryRepository.php:66-70 | the memo entry becomes old + step when `isset` holds and the step itself otherwise, whatever the store held, with other keys unchanged; the result is the store's reply, not the memo value; a non-numeric memo value raises before anything changes or is called |
| MemoryRepository.Decrement | src/Halcyon/MemoryRepository.php:79-83 | the memo entry becomes old − step when `isset` holds and −step otherwise, with other keys unchanged; the result is the store's reply; a non-numeric memo value raises before anything changes |
| MemoryRepository.Forever | src/Halcyon/MemoryRepository.php:92-96 | unconditionally, memo and store both hold the value for the key, no other key changes, and one no-expiry write is made |
| MemoryRepository.Forget | src/Halcyon/MemoryRepository.php:104-108 | the key is absent from memo and store afterwards, no other memo key changes, and the result is the store's delete flag |
| MemoryRepository.Flush | src/Halcyon/MemoryRepository.php:116-120 | memo and store are both empty afterwards, the prefix is kept, and the store is cleared by exactly one call |
| MemoryRepository.FlushInternalCache | src/Halcyon/MemoryRepository.php:122-125 | the memo is empty afterwards, the store is untouched, and no call is made |
| MemoryRepository.GetPrefix | src/Halcyon/MemoryRepository.php:132-135 | returns the store's prefix unchanged, changes nothing, and makes one call to the store |
| Lifetime.ApplyKeepsCoherent | src/Halcyon/MemoryRepository.php:26-125 | every modelled operation (single-key put only) except increment and decrement keeps each memoized value consistent with the store: the store holds that value or nothing |
| Lifetime.RunKeepsCoherent | src/Halcyon/MemoryRepository.php:26-125 | coherence holds across any sequence of modelled operations (single-key put only) with no counter call |
| Lifetime.CoherentGetReadsThrough | src/Halcyon/MemoryRepository.php:32-36 | in a coherent cache, a single-key `get` for a key the store holds returns the store's value, whether or not it was memoized |
| Lifetime.NoCounterRunReadsThrough | src/Halcyon/MemoryRepository.php:18-36 | starting from an empty memo, after any run with no counter call, a single-key `get` never contradicts a value the store holds, when nothing else writes the store |
| Lifetime.RunMemoKeys | src/Halcyon/MemoryRepository.php:18-125 | the memo only holds keys it held before or that a single-key get, put, increment, decrement or forever of the run named; batch reads, forgets and flushes add none |
| Lifetime.RunKeepsPrefix | src/Halcyon/MemoryRepository.php:116-135 | no sequence of operations changes the store prefix that `getPrefix` reports |
| Properties.SecondGetIsServedFromMemo | src/Halcyon/MemoryRepository.php:32-36 | after a non-null answer, a second `get` with any default returns the same answer with no store call and no change |
| Properties.DefaultIsMemoized | src/Halcyon/MemoryRepository.php:36 | when the store misses, the caller's non-null default is memoized and later answers a `get` made with a different default |
| Properties.NullAnswerIsFetchedAgain | src/Halcyon/MemoryRepository.php:32-36 | a memoized null fails `isset`, so the next `get` reads the store again and memoizes the new default |
| Properties.PutThenGet | src/Halcyon/MemoryRepository.php:53-56 | after a `put` with a resolved duration, `get` returns the non-null value with no store call |
| Properties.PutNullThenGet | src/Halcyon/MemoryRepository.php:53-56 | after `put` of null, the next `get` reads the store again and returns the caller's default |
| Properties.PutWithoutDurationIsNoop | src/Halcyon/MemoryRepository.php:47-57 | `put` called without a duration (the default `$minutes = null`) leaves memo and store unchanged and makes no call, given that the parent resolves an absent duration to null |
| Properties.PutWithoutDurationIsInvisible | src/Halcyon/MemoryRepository.php:53 | after a `put` whose duration resolves to null, every `get` (single or batch) behaves exactly as without the put |
| Properties.IncrementCanBreakCoherence | src/Halcyon/MemoryRepository.php:66-70 | with nothing memoized and n ≠ 0 stored, a correctly counting store ends at n + d while the memo says d, so the tiers are no longer coherent |
| Properties.IncrementThenDecrement | src/Halcyon/MemoryRepository.php:66-83 | increment then decrement by the same step leaves the memo at the number the entry stood for, or at 0 if nothing was memoized, with other keys unchanged |
| Properties.ForgetThenGet | src/Halcyon/MemoryRepository.php:104-108 | after `forget`, `get` reads the store again and returns the default |
| Properties.FlushThenGet | src/Halcyon/MemoryRepository.php:116-120 | after `flush`, `get` reads the store again and returns the default |
| Properties.FlushInternalCacheThenGet | src/Halcyon/MemoryRepository.php:122-125 | after `flushInternalCache`, `get` reads the untouched store again |
| Properties.BatchGetIgnoresMemo | src/Halcyon/MemoryRepository.php:28-30 | two caches over the same store give the same batch answer whatever their memos hold |

## Left out

- The array-key form of `put` (lines 49-50) is not modelled. It calls
  `putMany` and then does not return. If the duration then resolves to
  non-null, line 54 uses the array as an array offset, which PHP rejects as an
  illegal offset type. Whether the batch path was meant to return at once is
  an open question. The model only has `put` for a single string key.
  The usual batch call, `put(['a' => 1], 10)`, binds the minutes to `$value`
  and leaves `$minutes` null. It writes the store through `putMany` and skips
  lines 53-56, so the memo is never updated and a key memoized earlier keeps
  its old value. That breaks coherence between the tiers, a third way besides
  the two counters. The coherence lemmas cover only the modelled operations.
- The parent's internals are opaque functions in `Backend`: `getMinutes`,
  `many`, and the replies of the store's `increment`, `decrement` and
  `forget`. Their code is not part of this model. Expiry, serialization and
  the cache events the parent fires are not represented.
- Duration forms (`DateTimeInterface`, `DateInterval`, float minutes) are
  plain data. How `getMinutes` converts them is opaque. `Backend.minutes` is
  one fixed function for a whole run, although `getMinutes` reads the clock
  when it converts an absolute instant.
- MemoryRepository.Put: nothing in the model forces the parent to resolve the
  default `$minutes = null` to "do not write". That `put(k, v)` with no
  duration is a no-op is proved only under the assumption `NullMeansNoWrite`
  (`Properties.PutWithoutDurationIsNoop`).
- Values are immutable data. PHP objects are handles: lines 36, 54 and 94
  memoize the caller's own handle, and line 33 returns it. A caller who
  mutates that object changes the memoized value without any call, while a
  serializing store keeps the old copy. `Coherent`, `PutThenGet` and
  `SecondGetIsServedFromMemo` hold only for values nobody mutates afterwards.
- The array form `get(['k' => default])` is not modelled: its per-key
  defaults cannot be expressed, because `Many` carries only a list of keys.
- Closure defaults are not modelled. The parent evaluates a Closure
  `$default` only on a miss, and line 36 memoizes the result. `Backing.Read`
  treats the default as a plain value.
- Store failures are not modelled: exceptions raised by the store, and the
  memo update that is not rolled back when they happen. The store's effect on
  a counter is reduced to one simple contract (`Backing.Counted`). The only
  error modelled is PHP's own, raised while computing the memo's new counter
  value.
- MemoryRepository.Increment: the step is an integer, while PHP accepts any
  value. Numeric strings and floats are not values of the model. `Data`
  stands for operands on which PHP 8 arithmetic raises. `getMinutes` (line
  53) places the source on Laravel 5.7 or earlier, so on PHP 7. PHP 7 only
  warns on a non-numeric string, treating it as 0, and converts an object to
  1 with a notice. There `increment` on such a memoized value updates the
  memo and calls the store; the model returns `Raised` and makes no call.
- MemoryRepository.Decrement: same restriction on the step and operands as
  increment, including the PHP 7 handling of non-numeric strings and objects.
- MemoryRepository.Increment: integers are unbounded. PHP turning an integer
  overflow into a float is not modelled.
- MemoryRepository.Decrement: integers are unbounded. PHP turning an overflow
  at line 81 into a float is not modelled. That covers `old - step` below
  `PHP_INT_MIN`, and `-$value` when `$value` is `PHP_INT_MIN`.
- MemoryRepository.Flush: its docblock promises a `bool`, but the method
  returns nothing, and the model returns nothing too.
- Concurrency is not modelled: the class is unsynchronized and meant for one
  request.
- The store is assumed to be written only through this cache. In a run, the
  store changes only through this instance's own operations. The real store
  is shared: another repository or another request can write a key between
  two calls. Then lines 32-33 keep answering the memoized value while the
  store holds a new one. `Lifetime.Coherent`, `Lifetime.ApplyKeepsCoherent`,
  `Lifetime.RunKeepsCoherent`, `Lifetime.CoherentGetReadsThrough` and
  `Lifetime.NoCounterRunReadsThrough` hold only under that assumption. The
  class itself makes no promise about writes made to the store by anyone
  else.

=== FILE: backing.dfy ===
/** The parent cache repository and the store behind it, seen only through
    the calls the request-level cache makes on them. */
module Backing {
  import opened Values

  type Entries = map<string, Value>

  /** The backing store: its entries (already scoped by its key prefix) and
      that prefix. Expiry and serialization are not represented. */
  datatype Store = Store(entries: Entries, prefix: string)

  /** The forms a duration argument takes: nothing, an absolute instant, a
      relative interval, or a number of minutes (fractions allowed). */
  datatype DurationArg = NoDuration | At(timestamp: int) | Interval(seconds: int) | Minutes(m: real)

  /** The parent's behaviour that the cache relies on but that is not visible
      from it: how a duration argument resolves (null means "do not write"),
      what a batch read answers, what the store answers to an increment or a
      decrement, and the flag it answers to a delete. */
  datatype Backend = Backend(
    minutes: DurationArg -> Option<real>,
    many: (Entries, seq<string>) -> map<string, Value>,
    increment: (Entries, string, int) -> Value,
    decrement: (Entries, string, int) -> Value,
    forget: (Entries, string) -> bool)

  /** The parent resolves an absent duration (`put`'s default `$minutes = null`)
      to null, meaning "do not write". Nothing in `Backend` forces this; it is
      an assumption about the parent, stated where it is used. */
  ghost predicate NullMeansNoWrite(b: Backend)
  {
    b.minutes(NoDuration) == None
  }

  /** One call from the cache into its parent or its store. */
  datatype Call =
    | ReadOne(key: string, default: Value)
    | ReadMany(keys: seq<string>)
    | Write(key: string, value: Value, minutes: real)
    | WriteForever(key: string, value: Value)
    | Increase(key: string, step: int)
    | Decrease(key: string, step: int)
    | Delete(key: string)
    | Clear
    | AskPrefix

  /** The parent's single-key read, as this model assumes it: the stored
      value, or the caller's default when the store holds nothing. A stored
      null reads as nothing. */
  function Read(s: Store, k: string, default: Value): Value
  {
    if IsSet(s.entries, k) then s.entries[k] else default
  }

  /** The store after a counter call on `k` that answered `reply`, as this
      model assumes it: an integer answer is the counter's new value; any
      other answer (a failure flag) leaves the store as it was. */
  function Counted(s: Store, k: string, reply: Value): Store
  {
    if reply.Int? then Store(s.entries[k := reply], s.prefix) else s
  }
}

=== FILE: lifetime.dfy ===
/** A request's lifetime: any sequence of operations on one cache, and the
    invariants that hold over it. */
module Lifetime {
  import opened Values
  import opened Backing
  import opened MemoryRepository

  /** One public call on the cache, with its arguments. */
  datatype Op =
    | GetOp(key: KeyArg, default: Value)
    | PutOp(k: string, value: Value, ttl: DurationArg)
    | IncrementOp(k: string, d: int)
    | DecrementOp(k: string, d: int)
    | ForeverOp(k: string, value: Value)
    | ForgetOp(k: string)
    | FlushOp
    | FlushInternalCacheOp
    | GetPrefixOp
  {
    /** The two counter operations, which seed the memo without looking at the store. */
    predicate IsCounter()
    {
      IncrementOp? || DecrementOp?
    }

    /** The single key whose memo entry the operation may create or replace. */
    function Touched(): set<string>
    {
      match this
      case GetOp(key, _) => if key.One? then {key.key} else {}
      case PutOp(k, _, _) => {k}
      case IncrementOp(k, _) => {k}
      case DecrementOp(k, _) => {k}
      case ForeverOp(k, _) => {k}
      case _ => {}
    }
  }

  /** The cache after one operation. */
  function Apply(b: Backend, r: Repo, op: Op): Repo
  {
    match op
    case GetOp(key, default) => Get(b, r, key, default).repo
    case PutOp(k, v, ttl) => Put(b, r, k, v, ttl).repo
    case IncrementOp(k, d) => Increment(b, r, k, d).repo
    case DecrementOp(k, d) => Decrement(b, r, k, d).repo
    case ForeverOp(k, v) => Forever(r, k, v).repo
    case ForgetOp(k) => Forget(b, r, k).repo
    case FlushOp => Flush(r).repo
    case FlushInternalCacheOp => FlushInternalCache(r).repo
    case GetPrefixOp => GetPrefix(r).repo
  }

  /** The cache after a sequence of operations, first to last. */
  function Run(b: Backend, r: Repo, ops: seq<Op>): Repo
    decreases |ops|
  {
    if ops == [] then r else Run(b, Apply(b, r, ops[0]), ops[1..])
  }

  /** Every key the sequence may memoize. */
  function TouchedAll(ops: seq<Op>): set<string>
    decreases |ops|
  {
    if ops == [] then {} else ops[0].Touched() + TouchedAll(ops[1..])
  }

  predicate NoCounters(ops: seq<Op>)
  {
    forall i :: 0 <= i < |ops| ==> !ops[i].IsCounter()
  }

  /** The memo and the store do not contradict each other: for every memoized
      key, the store either holds that same value or holds nothing for the
      key, so a read through the parent with the memoized value as default
      gives back the memoized value. A run changes the store only through
      this cache's own operations; a write by any other client of the same
      store can break coherence without any call on this cache. */
  ghost predicate Coherent(r: Repo)
  {
    forall k :: k in r.memo ==> Read(r.store, k, r.memo[k]) == r.memo[k]
  }

  /** Every modelled operation except the two counters keeps the memo coherent.
      (The array-key `put` is not modelled; it also writes behind the memo.) */
  lemma ApplyKeepsCoherent(b: Backend, r: Repo, op: Op)
    requires Coherent(r)
    requires !op.IsCounter()
    ensures Coherent(Apply(b, r, op))
  {
  }

  /** Coherence holds over any stretch of a request made of modelled operations
      with no counter call. */
  lemma {:induction false} RunKeepsCoherent(b: Backend, r: Repo, ops: seq<Op>)
    requires Coherent(r)
    requires NoCounters(ops)
    ensures Coherent(Run(b, r, ops))
    decreases |ops|
  {
    if ops != [] {
      assert !ops[0].IsCounter();
      ApplyKeepsCoherent(b, r, ops[0]);
      assert NoCounters(ops[1..]) by {
        forall i | 0 <= i < |ops[1..]|
          ensures !ops[1..][i].IsCounter()
        {
          assert ops[1..][i] == ops[i + 1];
        }
      }
      RunKeepsCoherent(b, Apply(b, r, ops[0]), ops[1..]);
    }
  }

  /** In a coherent cache a single-key read never contradicts the store: when
      the store holds a value for the key, `get` returns exactly that value,
      memoized or not. */
  lemma CoherentGetReadsThrough(b: Backend, r: Repo, k: string, default: Value)
    requires Coherent(r)
    requires IsSet(r.store.entries, k)
    ensures Get(b, r, One(k), default).result == Single(r.store.entries[k])
  {
  }

  /** A cache opened on a store and driven by any sequence of non-counter
      operations answers a single-key `get` with the store's value whenever
      the store holds one for the key. */
  lemma NoCounterRunReadsThrough(b: Backend, s: Store, ops: seq<Op>, k: string, default: Value)
    requires NoCounters(ops)
    requires IsSet(Run(b, Open(s), ops).store.entries, k)
    ensures var r := Run(b, Open(s), ops);
      Get(b, r, One(k), default).result == Single(r.store.entries[k])
  {
    RunKeepsCoherent(b, Open(s), ops);
    CoherentGetReadsThrough(b, Run(b, Open(s), ops), k, default);
  }

  /** The memo holds only keys it held before or that some operation of the
      sequence touched: batch reads, prefix queries and flushes add nothing. */
  lemma {:induction false} RunMemoKeys(b: Backend, r: Repo, ops: seq<Op>)
    ensures Run(b, r, ops).memo.Keys <= r.memo.Keys + TouchedAll(ops)
    decreases |ops|
  {
    if ops != [] {
      var r1 := Apply(b, r, ops[0]);
      assert r1.memo.Keys <= r.memo.Keys + ops[0].Touched();
      RunMemoKeys(b, r1, ops[1..]);
    }
  }

  /** No operation ever changes the store's prefix. */
  lemma {:induction false} RunKeepsPrefix(b: Backend, r: Repo, ops: seq<Op>)
    ensures Run(b, r, ops).store.prefix == r.store.prefix
    decreases |ops|
  {
    if ops != [] {
      RunKeepsPrefix(b, Apply(b, r, ops[0]), ops[1..]);
    }
  }
}

=== FILE: memory_repository.dfy ===
/** The request-level cache: a local memo map in front of the parent cache
    repository. Every operation reads or updates the memo and then delegates
    to the parent; each returns the repository afterwards, its result, and
    the calls it made on the parent or the store, in order. */
module MemoryRepository {
  import opened Values
  import opened Backing

  /** The memo (the `$cache` array) and the store the parent writes to. */
  datatype Repo = Repo(memo: map<string, Value>, store: Store)

  datatype Step<+T> = Step(repo: Repo, result: T, calls: seq<Call>)

  /** `get` accepts one key or an array of keys. */
  datatype KeyArg = One(key: string) | Many(keys: seq<string>)

  datatype Answer = Single(value: Value) | Batch(values: map<string, Value>)

  /** What a counter call gives back: the store's reply, or an error PHP
      raised while computing the memo's new value. */
  datatype Outcome = Returned(reply: Value) | Raised

  /** A cache as it is constructed: an empty memo in front of `s`. */
  function Open(s: Store): Repo
  {
    Repo(map[], s)
  }

  /** `get`: an array of keys goes to the parent's batch read and bypasses the
      memo; a single key is answered from the memo when `isset` holds there,
      and otherwise read through the parent, the answer (default included)
      being memoized under that key. */
  function Get(b: Backend, r: Repo, key: KeyArg, default: Value): (st: Step<Answer>)
    ensures key.Many? ==>
      && st.repo == r
      && st.result == Batch(b.many(r.store.entries, key.keys))
      && st.calls == [ReadMany(key.keys)]
    ensures key.One? ==> st.result.Single? && st.repo.store == r.store
    ensures key.One? && IsSet(r.memo, key.key) ==>
      && st.result.value == r.memo[key.key]
      && st.repo == r
      && st.calls == []
    ensures key.One? && !IsSet(r.memo, key.key) ==>
      && st.result.value == Read(r.store, key.key, default)
      && Sets(r.memo, st.repo.memo, key.key, st.result.value)
      && st.calls == [ReadOne(key.key, default)]
  {
    match key
    case Many(keys) => Step(r, Batch(b.many(r.store.entries, keys)), [ReadMany(keys)])
    case One(k) =>
      if IsSet(r.memo, k) then Step(r, Single(r.memo[k]), [])
      else
        var v := Read(r.store, k, default);
        Step(Repo(r.memo[k := v], r.store), Single(v), [ReadOne(k, default)])
  }

  /** `put` for a single key: when the duration resolves to null nothing
      happens at all; otherwise the value goes into the memo and is written
      through with the resolved duration. */
  function Put(b: Backend, r: Repo, key: string, value: Value, ttl: DurationArg): (st: Step<()>)
    ensures b.minutes(ttl).None? ==> st.repo == r && st.calls == []
    ensures b.minutes(ttl).Some? ==>
      && Sets(r.memo, st.repo.memo, key, value)
      && Sets(r.store.entries, st.repo.store.entries, key, value)
      && st.repo.store.prefix == r.store.prefix
      && st.calls == [Write(key, value, b.minutes(ttl).value)]
  {
    match b.minutes(ttl)
    case None => Step(r, (), [])
    case Some(m) =>
      Step(Repo(r.memo[key := value], Store(r.store.entries[key := value], r.store.prefix)), (), [Write(key, value, m)])
  }

  /** `increment`: the memo entry becomes its old value plus `d` when `isset`
      holds, and `d` itself otherwise, whatever the store held; the result is
      the store's own reply. When PHP cannot add to the memoized value it
      raises before anything is assigned or delegated. */
  function Increment(b: Backend, r: Repo, key: string, d: int): (st: Step<Outcome>)
    ensures IsSet(r.memo, key) && r.memo[key].Data? ==>
      st == Step(r, Raised, [])
    ensures IsSet(r.memo, key) && !r.memo[key].Data? ==>
      Sets(r.memo, st.repo.memo, key, Int(ToNumber(r.memo[key]).value + d))
    ensures !IsSet(r.memo, key) ==> Sets(r.memo, st.repo.memo, key, Int(d))
    ensures st.result.Returned? <==> !(IsSet(r.memo, key) && r.memo[key].Data?)
    ensures st.result.Returned? ==>
      && st.result.reply == b.increment(r.store.entries, key, d)
      && st.repo.store == Counted(r.store, key, st.result.reply)
      && st.calls == [Increase(key, d)]
  {
    var seeded := if IsSet(r.memo, key) then Plus(r.memo[key], d) else Some(Int(d));
    match seeded
    case None => Step(r, Raised, [])
    case Some(v) =>
      var reply := b.increment(r.store.entries, key, d);
      Step(Repo(r.memo[key := v], Counted(r.store, key, reply)), Returned(reply), [Increase(key, d)])
  }

  /** `decrement`: the memo entry becomes its old value minus `d` when `isset`
      holds, and `-d` otherwise; the result is the store's own reply. */
  function Decrement(b: Backend, r: Repo, key: string, d: int): (st: Step<Outcome>)
    ensures IsSet(r.memo, key) && r.memo[key].Data? ==>
      st == Step(r, Raised, [])
    ensures IsSet(r.memo, key) && !r.memo[key].Data? ==>
      Sets(r.memo, st.repo.memo, key, Int(ToNumber(r.memo[key]).value - d))
    ensures !IsSet(r.memo, key) ==> Sets(r.memo, st.repo.memo, key, Int(-d))
    ensures st.result.Returned? <==> !(IsSet(r.memo, key) && r.memo[key].Data?)
    ensures st.result.Returned? ==>
      && st.result.reply == b.decrement(r.store.entries, key, d)
      && st.repo.store == Counted(r.store, key, st.result.reply)
      && st.calls == [Decrease(key, d)]
  {
    var seeded := if IsSet(r.memo, key) then Minus(r.memo[key], d) else Some(Int(-d));
    match seeded
    case None => Step(r, Raised, [])
    case Some(v) =>
      var reply := b.decrement(r.store.entries, key, d);
      Step(Repo(r.memo[key := v], Counted(r.store, key, reply)), Returned(reply), [Decrease(key, d)])
  }

  /** `forever`: the value goes into the memo and into the store with no
      expiry, unconditionally. */
  function Forever(r: Repo, key: string, value: Value): (st: Step<()>)
    ensures Sets(r.memo, st.repo.memo, key, value)
    ensures Sets(r.store.entries, st.repo.store.entries, key, value)
    ensures st.repo.store.prefix == r.store.prefix
    ensures st.calls == [WriteForever(key, value)]
  {
    Step(Repo(r.memo[key := value], Store(r.store.entries[key := value], r.store.prefix)), (), [WriteForever(key, value)])
  }

  /** `forget`: the key leaves the memo (nothing else does) and the store; the
      result is the store's delete flag. */
  function Forget(b: Backend, r: Repo, key: string): (st: Step<bool>)
    ensures key !in st.repo.memo && st.repo.memo == r.memo - {key}
    ensures key !in st.repo.store.entries && st.repo.store.entries == r.store.entries - {key}
    ensures st.repo.store.prefix == r.store.prefix
    ensures st.result == b.forget(r.store.entries, key)
    ensures st.calls == [Delete(key)]
  {
    var gone := b.forget(r.store.entries, key);
    Step(Repo(r.memo - {key}, Store(r.store.entries - {key}, r.store.prefix)), gone, [Delete(key)])
  }

  /** `flushInternalCache`: the memo is emptied; the store is not called. */
  function FlushInternalCache(r: Repo): (st: Step<()>)
    ensures st.repo.memo == map[] && st.repo.store == r.store
    ensures st.calls == []
  {
    Step(Repo(map[], r.store), (), [])
  }

  /** `flush`: the memo is emptied first, then the store is cleared by exactly
      one call. The store's answer is not passed back. */
  function Flush(r: Repo): (st: Step<()>)
    ensures st.repo.memo == map[]
    ensures st.repo.store.entries == map[] && st.repo.store.prefix == r.store.prefix
    ensures st.calls == [Clear]
  {
    var local := FlushInternalCache(r);
    Step(Repo(local.repo.memo, Store(map[], r.store.prefix)), (), local.calls + [Clear])
  }

  /** `getPrefix`: the store's prefix, untransformed; no state changes. */
  function GetPrefix(r: Repo): (st: Step<string>)
    ensures st.result == r.store.prefix
    ensures st.repo == r
    ensures st.calls == [AskPrefix]
  {
    Step(r, r.store.prefix, [AskPrefix])
  }
}

=== FILE: properties.dfy ===
/** What callers of the request-level cache can observe across two or more
    calls: memoization, the `isset` test on null entries, write-through, the
    counter heuristic, removal and clearing. */
module Properties {
  import opened Values
  import opened Backing
  import opened MemoryRepository
  import Lifetime

  /** A non-null answer is memoized: asking again, with any default, gives the
      same answer without calling the store and without changing anything. */
  lemma SecondGetIsServedFromMemo(b: Backend, r: Repo, k: string, d1: Value, d2: Value)
    requires Get(b, r, One(k), d1).result.value != Null
    ensures var first := Get(b, r, One(k), d1);
      Get(b, first.repo, One(k), d2) == Step(first.repo, first.result, [])
  {
  }

  /** A miss is memoized with the caller's default: once the store had nothing,
      a later `get` returns the first default even when asked with another. */
  lemma DefaultIsMemoized(b: Backend, r: Repo, k: string, d1: Value, d2: Value)
    requires !IsSet(r.memo, k) && !IsSet(r.store.entries, k)
    requires d1 != Null
    ensures var first := Get(b, r, One(k), d1);
      first.result == Single(d1) && Get(b, first.repo, One(k), d2).result == Single(d1)
  {
  }

  /** A memoized null fails `isset`, so the next `get` goes back to the store and
      answers with the new default. */
  lemma NullAnswerIsFetchedAgain(b: Backend, r: Repo, k: string, d2: Value)
    requires !IsSet(r.memo, k) && !IsSet(r.store.entries, k)
    ensures var first := Get(b, r, One(k), Null);
      && first.repo.memo[k] == Null
      && Get(b, first.repo, One(k), d2) == Step(first.repo.(memo := first.repo.memo[k := d2]), Single(d2), [ReadOne(k, d2)])
  {
  }

  /** After a `put` that resolved a duration, `get` returns the written value
      without calling the store. */
  lemma PutThenGet(b: Backend, r: Repo, k: string, v: Value, ttl: DurationArg, d: Value)
    requires b.minutes(ttl).Some?
    requires v != Null
    ensures var after := Put(b, r, k, v, ttl).repo;
      Get(b, after, One(k), d) == Step(after, Single(v), [])
  {
  }

  /** `put` of null writes null to both tiers, and since a stored null reads as
      nothing, the next `get` calls the store and answers with its default. */
  lemma PutNullThenGet(b: Backend, r: Repo, k: string, ttl: DurationArg, d: Value)
    requires b.minutes(ttl).Some?
    ensures var after := Put(b, r, k, Null, ttl).repo;
      var st := Get(b, after, One(k), d);
      st.result == Single(d) && st.calls == [ReadOne(k, d)]
  {
  }

  /** A `put` whose duration resolves to null leaves no trace: every later
      `get` behaves exactly as if it had not been made. */
  lemma PutWithoutDurationIsInvisible(b: Backend, r: Repo, k: string, v: Value, ttl: DurationArg, key: KeyArg, d: Value)
    requires b.minutes(ttl).None?
    ensures Get(b, Put(b, r, k, v, ttl).repo, key, d) == Get(b, r, key, d)
  {
  }

  /** `put` called without a duration (the default `$minutes = null`) is a
      no-op on both tiers with no call, provided the parent resolves an absent
      duration to null. */
  lemma PutWithoutDurationIsNoop(b: Backend, r: Repo, k: string, v: Value)
    requires NullMeansNoWrite(b)
    ensures Put(b, r, k, v, NoDuration) == Step(r, (), [])
  {
  }

  /** The counter heuristic can make the two tiers disagree even with a store
      that counts correctly: with nothing memoized and `n` stored, the memo
      becomes `d` while the store becomes `n + d`, and coherence is lost. */
  lemma IncrementCanBreakCoherence(b: Backend, r: Repo, k: string, n: int, d: int)
    requires !IsSet(r.memo, k)
    requires k in r.store.entries && r.store.entries[k] == Int(n) && n != 0
    requires b.increment(r.store.entries, k, d) == Int(n + d)
    ensures var st := Increment(b, r, k, d);
      && st.result == Returned(Int(n + d))
      && st.repo.memo[k] == Int(d)
      && st.repo.store.entries[k] == Int(n + d)
      && !Lifetime.Coherent(st.repo)
  {
  }

  /** Decrementing by the step just incremented leaves the memo holding the
      number the entry stood for, or 0 when nothing was memoized: a memo entry
      absent before is not absent again. */
  lemma IncrementThenDecrement(b: Backend, r: Repo, k: string, d: int)
    requires !(IsSet(r.memo, k) && r.memo[k].Data?)
    ensures var up := Increment(b, r, k, d);
      var down := Decrement(b, up.repo, k, d);
      && down.result.Returned?
      && down.repo.memo[k] == Int(if IsSet(r.memo, k) then ToNumber(r.memo[k]).value else 0)
      && down.repo.memo - {k} == r.memo - {k}
  {
  }

  /** After `forget`, `get` calls the store again; the store no longer holds the
      key, so the answer is the caller's default. */
  lemma ForgetThenGet(b: Backend, r: Repo, k: string, d: Value)
    ensures var after := Forget(b, r, k).repo;
      var st := Get(b, after, One(k), d);
      st.result == Single(d) && st.calls == [ReadOne(k, d)]
  {
  }

  /** After `flush`, every single-key `get` calls the store and answers with the
      default, because both tiers are empty. */
  lemma FlushThenGet(r: Repo, b: Backend, k: string, d: Value)
    ensures var after := Flush(r).repo;
      var st := Get(b, after, One(k), d);
      st.result == Single(d) && st.calls == [ReadOne(k, d)]
  {
  }

  /** After `flushInternalCache`, every single-key `get` re-validates against
      the untouched store. */
  lemma FlushInternalCacheThenGet(r: Repo, b: Backend, k: string, d: Value)
    ensures var after := FlushInternalCache(r).repo;
      var st := Get(b, after, One(k), d);
      st.result == Single(Read(r.store, k, d)) && st.calls == [ReadOne(k, d)]
  {
  }

  /** The batch read ignores the memo altogether: two caches over the same
      store give the same batch answer whatever their memos hold. */
  lemma BatchGetIgnoresMemo(b: Backend, r1: Repo, r2: Repo, keys: seq<string>, d1: Value, d2: Value)
    requires r1.store == r2.store
    ensures Get(b, r1, Many(keys), d1).result == Get(b, r2, Many(keys), d2).result
  {
  }
}

=== FILE: values.dfy ===
/** PHP values as the request-level cache holds them, with the two pieces of
    PHP semantics the repository relies on: `isset` on an array entry and
    `+` / `-` between a cached value and an integer step. */
module Values {

  datatype Option<+T> = None | Some(value: T)

  /** A cached PHP value, as an immutable datum. `Data` stands for every
      payload on which PHP 8 arithmetic with an integer raises an error: an
      array, an object, a non-numeric string. */
  datatype Value = Null | Bool(b: bool) | Int(i: int) | Data(payload: string)

  /** PHP `isset($m[$k])`: the key is present AND its value is not null. */
  predicate IsSet(m: map<string, Value>, k: string)
  {
    k in m && m[k] != Null
  }

  /** `m'` is `m` with exactly key `k` now mapped to `v`: every other key keeps
      its presence and its value. */
  predicate Sets(m: map<string, Value>, m': map<string, Value>, k: string, v: Value)
  {
    k in m' && m'[k] == v && m' - {k} == m - {k}
  }

  /** The integer PHP converts a value to in arithmetic (null is 0, false is 0,
      true is 1), or None where PHP raises instead. */
  function ToNumber(v: Value): Option<int>
  {
    match v
    case Null => Some(0)
    case Bool(b) => Some(if b then 1 else 0)
    case Int(i) => Some(i)
    case Data(_) => None
  }

  /** PHP `$v + $d` for an integer step `$d`; None when PHP raises. */
  function Plus(v: Value, d: int): (r: Option<Value>)
    ensures r.Some? <==> !v.Data?
    ensures r.Some? ==> r.value.Int? && r.value.i - d == ToNumber(v).value
  {
    match ToNumber(v)
    case Some(n) => Some(Int(n + d))
    case None => None
  }

  /** PHP `$v - $d` for an integer step `$d`; None when PHP raises. */
  function Minus(v: Value, d: int): (r: Option<Value>)
    ensures r.Some? <==> !v.Data?
    ensures r.Some? ==> r.value.Int? && r.value.i + d == ToNumber(v).value
  {
    match ToNumber(v)
    case Some(n) => Some(Int(n - d))
    case None => None
  }
}
